=== FILE: README.md ===
# Obsidian-AI sign-in, sign-up, OAuth callback and avatar picker — Dafny model

This project models the decision logic of the Obsidian-AI web client:

- the registration page: the e-mail format test `isValidEmail`, the password-strength score and its label, the ordered validation chain of `signUpWithEmail`, what the page does with the provider's sign-up answer, the "Create Account" `disabled` test, the Enter-key guard, and the navigation done on mount and on auth-state events;
- the login page: the guard and request of `signInWithEmail`, the `disabled` tests of the "Sign in" and Google buttons, the Enter-key guard, and the navigation on mount and on auth-state events;
- the OAuth callback route `GET`, as a pure function from the parsed request, `NODE_ENV` and the provider's answer to the code exchange to the string handed to `NextResponse.redirect`, or to no redirect at all when the exchange throws, since the route catches nothing;
- the avatar picker of the detail form: its two-field state, the upload-finished and placeholder-click transitions, and the three-way preview choice.

The hosted auth provider is not modelled. Each call the modelled handlers make to it becomes a parameter that holds its answer. Examples are `GetUserOutcome`, `SignUpOutcome`, `SignInOutcome`, `OAuthOutcome` and `AuthCallback.Exchange`. An asynchronous handler is split into a synchronous `Begin…` step and a `Finish…` step. The first sets the loading flag and issues the request. The second applies the provider's answer. The in-flight state is therefore a real value, and "no second submission while one is in flight" can be stated about it.

Blank characters are the ECMAScript WhiteSpace and LineTerminator code points (`JsText.IsSpace`). The regular-expression class `\s` and `String.prototype.trim` both use that set. Strings are sequences of characters rather than UTF-16 code units; no character outside the Basic Multilingual Plane is blank, '@' or an ASCII letter or digit, so only lengths can differ. A string used as a condition is true exactly when it is non-empty (`JsText.Truthy`).

Two behaviours of the code are proved as they are written:

- The login button tests `email.trim()`, but the Enter guard and `signInWithEmail` test the raw `email`. So an address made only of blanks passes the Enter guard while the button is disabled, and the provider receives `""` (`LoginPage.EnterSendsBlankAddress`, `LoginPage.BlankAddressOnlyByEnter`). On the registration page the same blank address is stopped by the first validation check (`RegisterPage.BlankEmailStoppedByValidation`).
- When `signInWithOAuth` returns an error, the Google flag stays set, so the Google button stays disabled until the page is reloaded (`Session.OAuthErrorKeepsGoogleDisabled`).

The auth listener has no deduplication: every `SIGNED_IN` for a confirmed user pushes `/home`, so a repeated event navigates again (`RegisterPage.RepeatedSignInNavigatesAgain`).

The two pages differ on mount and on `SIGNED_IN`: the login page sends any user home, confirmed or not, while the registration page sends only a confirmed one (`LoginPage.UnconfirmedUserDiffers`).

## Model

| member | source | states |
|---|---|---|
| JsText.Trim | client/app/auth/register/page.tsx:103 | `email.trim()` has no blank at either end, is a contiguous part of the input, and what it drops at both ends is all blank |
| JsText.TrimEmptyIffAllSpace | client/app/auth/login/page.tsx:246 | `email.trim()` is empty exactly when every character of `email` is blank |
| EmailFormat.EmailShape | client/app/auth/register/page.tsx:190-193 | `isValidEmail`, the meaning of `^[^\s@]+@[^\s@]+\.[^\s@]+$` (a run, '@', a run, '.', a run, where the middle run may hold dots) accepts exactly the strings with no blank, exactly one '@', a non-empty part before it, and a '.' after it that is neither the domain's first nor its last character |
| EmailFormat.AtCountRejected | client/app/auth/register/page.tsx:190-193 | a string with no '@', or with two or more, is rejected |
| EmailFormat.ValidEmailIsTrimmed | client/app/auth/register/page.tsx:108-131 | an accepted address is non-empty and is its own trim, so the `email.trim()` sent to sign-up is the address that was validated |
| PasswordStrength.Strength | client/app/auth/register/page.tsx:195-203 | the score lies in 0..5; a password of 8 or more characters scores at least 2; one shorter than 6 scores at most 3; the score is 0 exactly when the password is short and has no upper-case letter, digit or symbol |
| PasswordStrength.StrengthCountsBars | client/app/auth/register/page.tsx:385-428 | the score equals the number of green bars in the meter |
| PasswordStrength.StrengthBand | client/app/auth/register/page.tsx:205-210 | "Weak" iff score < 2, "Fair" iff 2 <= score < 4, "Strong" iff score >= 4; a password of 8 or more characters is never "Weak" |
| PasswordStrength.StrongNeedsClasses | client/app/auth/register/page.tsx:195-210 | a "Strong" password has at least 6 characters and at least two of upper-case, digit and symbol |
| PasswordStrength.AppendNeverWeakens | client/app/auth/register/page.tsx:195-210 | typing more characters never lowers the score or the label |
| Session.GoogleSignIn | client/app/auth/login/page.tsx:72-94 | the Google request goes to the callback route on the page's origin; the flag is cleared only when the call throws; a returned error is alerted and the page is left only on the redirect |
| Session.GoogleButtonAfterAttempt | client/app/auth/login/page.tsx:72-94 | after a Google attempt that did not leave the page, the Google button is disabled iff the call returned an error or an e-mail sign-in is in flight |
| Session.OAuthErrorKeepsGoogleDisabled | client/app/auth/login/page.tsx:86-93 | after a returned OAuth error the page is not left and the Google button stays disabled |
| RegisterPage.Initial | client/app/auth/register/page.tsx:18-26 | the first render shows the spinner, with the button disabled and the Enter key inert |
| RegisterPage.Validate | client/app/auth/register/page.tsx:103-126 | no alert iff all five checks pass; otherwise the alert is that of a failing check, and every check ordered before it passes |
| RegisterPage.BeginSignUp | client/app/auth/register/page.tsx:101-136 | a failing check raises its alert and sends nothing; otherwise the e-mail flag is set and the provider receives the validated address, the password and the callback URL |
| RegisterPage.FinishSignUp | client/app/auth/register/page.tsx:138-159 | the e-mail flag is cleared on every outcome; an error or exception raises an alert; only a confirmed user navigates, and only to `/home`; only an unconfirmed user turns on the "email sent" screen |
| RegisterPage.SignUpWithEmail | client/app/auth/register/page.tsx:101-159 | sign-up is called iff validation passes, so never with a password under 6 characters or unequal to its confirmation; a rejected attempt changes nothing and shows the first failing check's message |
| RegisterPage.SignUpResultBranch | client/app/auth/register/page.tsx:144-153 | after a successful sign-up an unconfirmed user sees the "email sent" screen without navigation, and a confirmed user goes to `/home` |
| RegisterPage.CreateAccountDisabled | client/app/auth/register/page.tsx:434-443 | the button is enabled exactly when neither flag is set and every validation check except the e-mail format passes; when enabled, validation either passes or fails only on the format |
| RegisterPage.EnabledButtonPassesChecks | client/app/auth/register/page.tsx:434-443 | an enabled "Create Account" means neither flag is set and every validation check except the e-mail format passes |
| RegisterPage.EnabledButtonWithValidEmailSubmits | client/app/auth/register/page.tsx:434-443 | an enabled button with a well-formed address always reaches the provider |
| RegisterPage.ButtonIgnoresEmailFormat | client/app/auth/register/page.tsx:434-443 | there is a form whose button is enabled and whose address validation rejects as malformed |
| RegisterPage.EnterIgnoresGoogleFlag | client/app/auth/register/page.tsx:212-223 | there is a valid form on which Enter starts a sign-up while the button is disabled by the Google flag |
| RegisterPage.EnterTriggers | client/app/auth/register/page.tsx:212-223 | Enter triggers on every form whose button is enabled, and only when the terms are accepted and no e-mail sign-up is in flight |
| RegisterPage.BlankEmailStoppedByValidation | client/app/auth/register/page.tsx:212-223 | an all-blank address that passes the Enter guard is rejected by the empty-address check |
| RegisterPage.InFlightBlocksResubmit | client/app/auth/register/page.tsx:434-443 | while a sign-up is in flight the button, the Google button and the Enter key are all blocked |
| RegisterPage.MismatchHint | client/app/auth/register/page.tsx:378-382 | when the hint shows, the button is disabled and validation fails at the mismatch check or an earlier one |
| RegisterPage.OnMount | client/app/auth/register/page.tsx:30-54 | the spinner ends on every outcome; `/home` is pushed iff a user with a confirmed address was fetched; a throw keeps the old user |
| RegisterPage.OnAuthEvent | client/app/auth/register/page.tsx:58-71 | `/home` is pushed iff SIGNED_IN brings a confirmed user; SIGNED_OUT clears the user without navigating; other events change nothing |
| RegisterPage.RepeatedSignInNavigatesAgain | client/app/auth/register/page.tsx:61-67 | a repeated SIGNED_IN for the same confirmed user pushes `/home` again |
| LoginPage.Initial | client/app/auth/login/page.tsx:17-22 | the first render shows the spinner, with "Sign in" disabled, the Google button enabled and the Enter key inert |
| LoginPage.BeginSignIn | client/app/auth/login/page.tsx:96-107 | an empty raw address or password is refused; otherwise the e-mail flag is set and the provider receives the trimmed address and the password |
| LoginPage.FinishSignIn | client/app/auth/login/page.tsx:109-121 | the e-mail flag is cleared on every outcome and nothing else changes; an alert is shown iff the call failed or threw |
| LoginPage.SignInWithEmail | client/app/auth/login/page.tsx:96-122 | sign-in is called iff both raw fields are non-empty, always with the trimmed address; a refused attempt changes nothing and shows the missing-fields alert |
| LoginPage.SignInDisabled | client/app/auth/login/page.tsx:243-247 | the button is enabled exactly when neither flag is set and a click would send a request with a non-empty address |
| LoginPage.EnterIgnoresGoogleFlag | client/app/auth/login/page.tsx:159-163 | there is a form on which Enter starts an e-mail sign-in while "Sign in" is disabled by the Google flag |
| LoginPage.EnterTriggers | client/app/auth/login/page.tsx:159-163 | Enter triggers on every form whose button is enabled, and whenever it triggers no e-mail sign-in is in flight and a request is sent |
| LoginPage.EnterSendsBlankAddress | client/app/auth/login/page.tsx:159-163 | there is a form on which Enter triggers while "Sign in" is disabled, and the provider receives the empty address |
| LoginPage.BlankAddressOnlyByEnter | client/app/auth/login/page.tsx:96-107 | the provider receives an empty address only for a non-empty all-blank input, one the button refuses |
| LoginPage.InFlightBlocksResubmit | client/app/auth/login/page.tsx:243-272 | while a sign-in is in flight both buttons and the Enter key are blocked |
| LoginPage.OnMount | client/app/auth/login/page.tsx:26-50 | the spinner ends on every outcome; `/home` is pushed iff a user was fetched, with no confirmation test |
| LoginPage.OnAuthEvent | client/app/auth/login/page.tsx:54-65 | SIGNED_IN with a user stores it and pushes `/home`; SIGNED_OUT clears the user and pushes `/auth/login`; any other event changes nothing |
| LoginPage.MountMatchesSignIn | client/app/auth/login/page.tsx:26-65 | the mount effect with a fetched user and a SIGNED_IN event for that user give the same state and the same push |
| LoginPage.SignOutThenSignIn | client/app/auth/login/page.tsx:54-65 | SIGNED_OUT then SIGNED_IN goes to `/auth/login` and then `/home`, and ends in the state the SIGNED_IN alone would give |
| LoginPage.UnconfirmedUserDiffers | client/app/auth/login/page.tsx:41-43 | for an unconfirmed user the login page pushes `/home` on mount and on SIGNED_IN, the registration page pushes nothing, and both store the user |
| LoginPage.PagesAgreeOtherwise | client/app/auth/login/page.tsx:26-65 | for a confirmed user, no user or a failed fetch both pages navigate alike on mount; on SIGNED_OUT only the login page navigates |
| AuthCallback.QueryGet | client/app/auth/callback/route.ts:6-7 | a query parameter is absent iff no pair has its name; otherwise its value is that of the first pair with the name |
| AuthCallback.NextTarget | client/app/auth/callback/route.ts:7 | `next` is the parameter's value when present, even if empty, and `/` only when absent |
| AuthCallback.Code | client/app/auth/callback/route.ts:6-9 | the code is used iff the parameter is present and non-empty, and it is then the first `code` value |
| AuthCallback.HandleCallback | client/app/auth/callback/route.ts:4-61 | an exchange is attempted exactly for a present, non-empty code; no redirect is issued when that exchange throws; without a code, or when the exchange answers with an error or no user, the string handed to the redirect is `origin + /auth/auth-code-error` |
| AuthCallback.NoCodeNoExchange | client/app/auth/callback/route.ts:9-60 | a missing or empty `code` gives the error-page redirect and no exchange, whatever the environment, host or provider answer |
| AuthCallback.SuccessTarget | client/app/auth/callback/route.ts:48-56 | on success: `origin + next` in development, `https:// + forwarded host + next` elsewhere when the header is non-empty, and `origin + next` otherwise |
| AuthCallback.SuccessEndsWithNext | client/app/auth/callback/route.ts:49-56 | every success redirect ends with `next`; one built on the origin is the error page exactly when `next` is the error path |
| AuthCallback.DevelopmentIgnoresForwardedHost | client/app/auth/callback/route.ts:48-51 | in development the forwarded host does not change the result |
| AvatarPicker.Display | client/components/details-form/image-upload-section.tsx:59-75 | the preview shows iff a non-empty preview is held; otherwise a placeholder image shows iff an index is held, using that table entry when the state is valid; otherwise the empty icon shows |
| AvatarPicker.StatusLabel | client/components/details-form/image-upload-section.tsx:101 | the label reads "Image selected" exactly when the preview image is displayed |
| AvatarPicker.Initial | client/components/details-form/image-upload-section.tsx:22-25 | the initial state is valid, shows the empty icon and "No file chosen", and highlights no button |
| AvatarPicker.Step | client/components/details-form/image-upload-section.tsx:28-43 | a file-input change leaves the state unchanged; a finished read stores its result, the data URL or null after a failure, and drops the placeholder; a click holds the index and drops the preview |
| AvatarPicker.FailedReadClearsChoice | client/components/details-form/image-upload-section.tsx:32-35 | a read that ends without a result returns the picker to its initial state, so an earlier placeholder choice is lost and the empty icon shows |
| AvatarPicker.StepPreservesValid | client/components/details-form/image-upload-section.tsx:22-43 | every page event keeps the two choices exclusive and the index inside the seven-entry table |
| AvatarPicker.RunPreservesValid | client/components/details-form/image-upload-section.tsx:11-75 | from a valid state, any sequence of page events stays valid, so the preview never shows an image without a source |
| AvatarPicker.LastChoiceWins | client/components/details-form/image-upload-section.tsx:28-43 | after any sequence of events the state is decided by the last upload or click alone, and is unchanged when there was none |

## Left out

- The auth provider's calls: they are network calls into a hosted service. The five the modelled handlers make (`getUser`, `signInWithPassword`, `signInWithOAuth`, `signUp`, `exchangeCodeForSession`) are each replaced by a parameter holding their answer; for the exchange, that answer also covers the creation of the server client before it. `resend` and `signOut` are called only from code left out below.
- `resendConfirmation` on the registration page: it only forwards the address to the provider's `resend` and shows a toast.
- `syncUserToMongoDB` on both pages and the commented-out sync block in the callback route: they are HTTP I/O, and nothing calls them.
- The auth-client factories under `client/utils/supabase/`: they are thin wrappers over the provider's library and the Next.js cookie store. The sign-out helper beside them, which calls `signOut`, is left out with them. The navbar is presentation only. The detail-form page only keeps a draft of its fields, updates it by field name and logs it on submit; nothing is sent or stored, so it is left out too.
- Parsing of the request URL (origin, percent-decoding of the query) and the case-insensitive header lookup in the callback route: `AuthCallback.Request` takes the origin, the decoded query pairs and the `x-forwarded-host` value as given.
- The `FileReader` itself, the hidden file-input click, `window.location.origin` (a parameter), `console` logging, the exact wording of `alert`/`toast` beyond the messages recorded, and the React effect lifecycle (subscribing and unsubscribing the auth listener).
- The page-level Google handler is modelled once, as `Session.GoogleSignIn`, for both pages. Its effect on the page is only the value of the Google flag.
- AuthCallback.HandleCallback: `location` is the string handed to `NextResponse.redirect`, not the `Location` header. The redirect parses and normalises that string as a URL, and throws when it is not a valid absolute URL, for example with a two-valued `x-forwarded-host` such as `a.example, b.example`. That exception also escapes `GET`, so then no redirect is issued either; the model does not parse URLs and does not promise this case. For the same reason `AuthCallback.SuccessEndsWithNext` speaks of the string, not the parsed target: a `next` beginning with `@` turns the origin into user information, and the browser is sent to the host after the `@`.
- PasswordStrength.Strength: counts characters where the page's `password.length` counts UTF-16 code units, so a password with characters outside the Basic Multilingual Plane may score differently.
- RegisterPage.Validate: the six-character minimum is likewise counted in characters, not UTF-16 code units.

=== FILE: avatar.dfy ===
/** The avatar picker of the detail form
    (client/components/details-form/image-upload-section.tsx): an uploaded
    image preview or one of seven placeholder pictures, never both. Reading
    the file is the browser's; its `onloadend` arrives as the `ReadFinished`
    event carrying `reader.result`: the data URL, or nothing when the read
    failed or was aborted. */
module AvatarPicker {
  import opened Opt
  import opened JsText

  /** The placeholder pictures offered, in button order (lines 11-19). */
  const PlaceholderImages: seq<string> := [
    "https://i.pinimg.com/736x/47/87/9c/47879cf1d71c4d0d358cf7c7ece60296.jpg",
    "https://i.pinimg.com/736x/48/30/8c/48308cd29d7103e59031e92350638ecd.jpg",
    "https://i.pinimg.com/1200x/4e/9f/09/4e9f097f3bbfd2178ed3076adda7fed5.jpg",
    "https://i.pinimg.com/736x/73/dc/fd/73dcfde212fdc13849eec3bd55efd1a8.jpg",
    "https://i.pinimg.com/736x/d5/cb/a2/d5cba23e858788e44717b1e30a5e7e32.jpg",
    "https://i.pinimg.com/736x/46/5b/7b/465b7b1c6c12105cec9bb386f6eafff2.jpg",
    "https://i.pinimg.com/736x/7c/91/98/7c91983bba1e8fc8e63fe3c3ca4e4880.jpg"
  ]

  /** The component's state (lines 22-25). */
  datatype AvatarState = AvatarState(preview: Option<string>, placeholder: Option<int>)

  /** At most one of the two choices is held. */
  predicate Exclusive(s: AvatarState) {
    s.preview.None? || s.placeholder.None?
  }

  /** A held placeholder index names one of the offered pictures. */
  predicate InRange(i: int) {
    0 <= i < |PlaceholderImages|
  }

  predicate Valid(s: AvatarState) {
    Exclusive(s) && (s.placeholder.Some? ==> InRange(s.placeholder.value))
  }

  /** What the preview box shows (lines 59-75). A placeholder index outside
      the table reads `undefined` and gives an image without a source. */
  datatype View = PreviewImage(src: string) | PlaceholderImage(url: Option<string>) | EmptyIcon

  function Display(s: AvatarState): (v: View)
    ensures v.PreviewImage? <==> s.preview.Some? && Truthy(s.preview.value)
    ensures v.PreviewImage? ==> v.src == s.preview.value
    ensures v.PlaceholderImage? ==> s.placeholder.Some?
    ensures v == EmptyIcon ==> s.placeholder.None?
    ensures Valid(s) && v.PlaceholderImage? ==> v.url == Some(PlaceholderImages[s.placeholder.value])
  {
    if s.preview.Some? && Truthy(s.preview.value) then PreviewImage(s.preview.value)
    else if s.placeholder.Some? then
      var i := s.placeholder.value;
      PlaceholderImage(if InRange(i) then Some(PlaceholderImages[i]) else None)
    else EmptyIcon
  }

  /** The label beside "Choose File" (line 101). */
  function StatusLabel(s: AvatarState): (text: string)
    ensures text == "Image selected" <==> Display(s).PreviewImage?
  {
    if s.preview.Some? && Truthy(s.preview.value) then "Image selected" else "No file chosen"
  }

  /** Whether placeholder button `i` carries the selection ring (line 118). */
  predicate Highlighted(s: AvatarState, i: int) {
    s.placeholder == Some(i)
  }

  /** The state on first render. */
  function Initial(): (s: AvatarState)
    ensures Valid(s) && Display(s) == EmptyIcon && StatusLabel(s) == "No file chosen"
    ensures forall i :: !Highlighted(s, i)
  {
    AvatarState(None, None)
  }

  /** The events the component reacts to: a change of the file input
      (`handleImageUpload`, lines 28-38, starts a read only when a file was
      chosen), the end of that read with its result (a data URL, or `null`
      after an error or an abort), and a click on placeholder button
      `index`. */
  datatype Event = FilesChanged | ReadFinished(result: Option<string>) | PlaceholderClicked(index: int)

  /** One event's effect: a change of the file input leaves the state as it
      is, whether or not it holds a file, since the state only changes when
      the read finishes; the read's completion (lines 32-35) stores its
      result, even a null one, and drops the placeholder, and
      `handlePlaceholderSelect` (lines 40-43) stores the index and drops the
      preview. */
  function Step(s: AvatarState, e: Event): (t: AvatarState)
    ensures e.FilesChanged? ==> t == s
    ensures e.ReadFinished? ==> t.preview == e.result && t.placeholder.None?
    ensures e.PlaceholderClicked? ==> t.placeholder == Some(e.index) && t.preview.None?
    ensures Exclusive(t) || t == s
  {
    match e
    case FilesChanged => s
    case ReadFinished(result) => AvatarState(result, None)
    case PlaceholderClicked(index) => AvatarState(None, Some(index))
  }

  /** A read that ends without a result still drops the placeholder, so the
      user's earlier choice is lost and the box shows the empty icon. */
  lemma FailedReadClearsChoice(s: AvatarState)
    ensures Step(s, ReadFinished(None)) == Initial()
    ensures Display(Step(s, ReadFinished(None))) == EmptyIcon
  {
  }

  /** The state after a sequence of events. */
  function Run(s: AvatarState, events: seq<Event>): AvatarState {
    if |events| == 0 then s else Step(Run(s, events[..|events| - 1]), events[|events| - 1])
  }

  /** Events the page can produce: clicks only come from the seven buttons. */
  predicate FromPage(events: seq<Event>) {
    forall k :: 0 <= k < |events| && events[k].PlaceholderClicked? ==> InRange(events[k].index)
  }

  /** Every event keeps the state valid when its click, if any, comes from a
      button on the page. */
  lemma StepPreservesValid(s: AvatarState, e: Event)
    requires Valid(s)
    requires e.PlaceholderClicked? ==> InRange(e.index)
    ensures Valid(Step(s, e))
  {
  }

  /** From a valid start, any sequence of page events keeps the choices
      exclusive and the index in range, so the preview never shows an image
      without a source. */
  lemma {:induction false} RunPreservesValid(s: AvatarState, events: seq<Event>)
    requires Valid(s) && FromPage(events)
    ensures Valid(Run(s, events))
    ensures Display(Run(s, events)) != PlaceholderImage(None)
  {
    if |events| > 0 {
      var front := events[..|events| - 1];
      assert FromPage(front) by {
        forall k | 0 <= k < |front| && front[k].PlaceholderClicked?
          ensures InRange(front[k].index)
        {
          assert front[k] == events[k];
        }
      }
      RunPreservesValid(s, front);
      StepPreservesValid(Run(s, front), events[|events| - 1]);
    }
  }

  /** The last upload or placeholder choice in `events`, if any. */
  function LastChoice(events: seq<Event>): (c: Option<Event>)
    ensures c.Some? ==> !c.value.FilesChanged?
  {
    if |events| == 0 then None
    else if events[|events| - 1].FilesChanged? then LastChoice(events[..|events| - 1])
    else Some(events[|events| - 1])
  }

  /** The last choice wins: it alone decides the state, and with no choice
      at all the state is where it started. */
  lemma {:induction false} LastChoiceWins(s: AvatarState, events: seq<Event>)
    ensures var t := Run(s, events);
            match LastChoice(events)
            case None => t == s
            case Some(ReadFinished(d)) => t == AvatarState(d, None)
            case Some(PlaceholderClicked(i)) => t == AvatarState(None, Some(i))
            case Some(FilesChanged) => false
  {
    if |events| > 0 {
      LastChoiceWins(s, events[..|events| - 1]);
    }
  }
}

=== FILE: callback.dfy ===
/** The OAuth callback route (client/app/auth/callback/route.ts) as a
    decision: from the parsed request, the runtime environment and the
    provider's answer to the code exchange, the URL the browser is
    redirected to. The exchange itself is the provider's; the model records
    which code it was asked to exchange, if any. */
module AuthCallback {
  import opened Opt
  import opened JsText
  import opened Session

  const ErrorPath: string := "/auth/auth-code-error"
  const DefaultNext: string := "/"

  /** `URLSearchParams.get`: the value of the first pair named `key`, or
      nothing when no pair has that name. */
  function QueryGet(query: seq<(string, string)>, key: string): (r: Option<string>)
    ensures r.None? <==> forall k :: 0 <= k < |query| ==> query[k].0 != key
    ensures r.Some? ==> exists k :: 0 <= k < |query| && query[k] == (key, r.value)
                          && forall m :: 0 <= m < k ==> query[m].0 != key
  {
    if |query| == 0 then None
    else if query[0].0 == key then Some(query[0].1)
    else QueryGet(query[1..], key)
  }

  /** The parts of the incoming request the route reads: the URL's origin,
      its query pairs in order, and the `x-forwarded-host` header. */
  datatype Request = Request(origin: string, query: seq<(string, string)>, forwardedHost: Option<string>)

  /** How creating the server client and `exchangeCodeForSession` ended:
      an answer with an error flag and the user, if any, or an exception.
      The route catches neither. */
  datatype Exchange = Answered(failed: bool, user: Option<User>) | ExchangeThrew

  predicate ExchangeSucceeded(x: Exchange) {
    x.Answered? && !x.failed && x.user.Some?
  }

  /** The route's answer: the code given to the exchange, if one was
      attempted, and the string handed to `NextResponse.redirect`. No
      location means the exchange's exception escaped `GET` and no redirect
      was issued. */
  datatype Response = Response(exchanged: Option<string>, location: Option<string>)

  /** `next`, defaulting to the site root only when the parameter is absent. */
  function NextTarget(req: Request): (n: string)
    ensures QueryGet(req.query, "next").Some? ==> n == QueryGet(req.query, "next").value
    ensures QueryGet(req.query, "next").None? ==> n == DefaultNext
  {
    QueryGet(req.query, "next").GetOr(DefaultNext)
  }

  /** The code to exchange: present and non-empty, since an empty value is
      false as a condition. */
  function Code(req: Request): (c: Option<string>)
    ensures c.Some? ==> Truthy(c.value) && c == QueryGet(req.query, "code")
    ensures c.None? <==> QueryGet(req.query, "code") in {None, Some("")}
  {
    match QueryGet(req.query, "code")
    case Some(c) => if Truthy(c) then Some(c) else None
    case None => None
  }

  /** `GET` (lines 4-61). `nodeEnv` is `process.env.NODE_ENV`; `exchange` is
      what the provider would answer for the code, consulted only when there
      is one. */
  function HandleCallback(req: Request, nodeEnv: string, exchange: Exchange): (r: Response)
    ensures r.exchanged == Code(req)
    ensures r.location.None? <==> Code(req).Some? && exchange.ExchangeThrew?
    ensures Code(req).None? || (exchange.Answered? && !ExchangeSucceeded(exchange))
            ==> r.location == Some(req.origin + ErrorPath)
  {
    var next := NextTarget(req);
    match Code(req)
    case None => Response(None, Some(req.origin + ErrorPath))
    case Some(code) =>
      if exchange.ExchangeThrew? then Response(Some(code), None)
      else if ExchangeSucceeded(exchange) then
        if nodeEnv == "development" then Response(Some(code), Some(req.origin + next))
        else if req.forwardedHost.Some? && Truthy(req.forwardedHost.value) then
          Response(Some(code), Some("https://" + req.forwardedHost.value + next))
        else Response(Some(code), Some(req.origin + next))
      else Response(Some(code), Some(req.origin + ErrorPath))
  }

  predicate EndsWith(s: string, suffix: string) {
    |suffix| <= |s| && s[|s| - |suffix|..] == suffix
  }

  /** A request without a usable code goes to the error page and no
      exchange is attempted, whatever the rest of the request says. */
  lemma NoCodeNoExchange(req: Request, nodeEnv: string, exchange: Exchange)
    requires QueryGet(req.query, "code").None? || QueryGet(req.query, "code") == Some("")
    ensures HandleCallback(req, nodeEnv, exchange) == Response(None, Some(req.origin + ErrorPath))
  {
  }

  /** The redirect on a successful exchange: the request's own origin in
      development whatever the forwarded host, the forwarded host over HTTPS
      elsewhere when one is given, and the origin otherwise. */
  lemma SuccessTarget(req: Request, nodeEnv: string, exchange: Exchange)
    requires Code(req).Some? && ExchangeSucceeded(exchange)
    ensures var loc := HandleCallback(req, nodeEnv, exchange).location.value;
            var next := NextTarget(req);
            && (nodeEnv == "development" ==> loc == req.origin + next)
            && ((nodeEnv != "development" && req.forwardedHost.Some? && req.forwardedHost.value != "")
                ==> loc == "https://" + req.forwardedHost.value + next)
            && ((nodeEnv != "development" && (req.forwardedHost.None? || req.forwardedHost.value == ""))
                ==> loc == req.origin + next)
  {
  }

  /** Every success redirect ends with `next`; one built on the origin is
      the error page exactly when `next` is the error path. */
  lemma SuccessEndsWithNext(req: Request, nodeEnv: string, exchange: Exchange)
    requires Code(req).Some? && ExchangeSucceeded(exchange)
    ensures var loc := HandleCallback(req, nodeEnv, exchange).location.value;
            EndsWith(loc, NextTarget(req))
    ensures var loc := HandleCallback(req, nodeEnv, exchange).location.value;
            (nodeEnv == "development" || req.forwardedHost.None? || req.forwardedHost.value == "")
              ==> (loc == req.origin + ErrorPath <==> NextTarget(req) == ErrorPath)
  {
    var loc := HandleCallback(req, nodeEnv, exchange).location.value;
    var next := NextTarget(req);
    if nodeEnv == "development" || req.forwardedHost.None? || req.forwardedHost.value == "" {
      assert loc == req.origin + next;
      if loc == req.origin + ErrorPath {
        assert next == loc[|req.origin|..];
        assert ErrorPath == (req.origin + ErrorPath)[|req.origin|..];
      }
    }
  }

  /** In development the forwarded host has no influence on the result. */
  lemma DevelopmentIgnoresForwardedHost(req: Request, host: Option<string>, exchange: Exchange)
    ensures HandleCallback(req, "development", exchange)
            == HandleCallback(req.(forwardedHost := host), "development", exchange)
  {
  }
}

=== FILE: email.dfy ===
/** The email-format test of the registration page, `isValidEmail`
    (client/app/auth/register/page.tsx:190-193). The page tests the anchored
    pattern `^[^\s@]+@[^\s@]+\.[^\s@]+$`; `IsValidEmail` states what that
    pattern matches, and `HasEmailShape` is the same language written as a
    plain description, proved equal to it. */
module EmailFormat {
  import opened JsText

  /** One match of `[^\s@]+`: a non-empty run of characters that are neither
      blank nor '@'. */
  predicate Run(t: string) {
    |t| > 0 && forall k :: 0 <= k < |t| ==> !IsSpace(t[k]) && t[k] != '@'
  }

  /** `isValidEmail`: the pattern matches `s` when `s` splits as run, '@',
      run, '.', run. The middle run may itself hold dots, so the engine may
      choose any '.' after the '@' as the separator. */
  predicate IsValidEmail(s: string) {
    exists i, j :: 0 <= i < j < |s| && s[i] == '@' && s[j] == '.'
      && Run(s[..i]) && Run(s[i + 1..j]) && Run(s[j + 1..])
  }

  /** Number of occurrences of `c` in `s`. */
  function Count(s: string, c: char): nat {
    if |s| == 0 then 0 else (if s[0] == c then 1 else 0) + Count(s[1..], c)
  }

  /** `String.prototype.indexOf` for one character: the first position of
      `c`, or -1 when there is none. */
  function IndexOf(s: string, c: char): (i: int)
    ensures -1 <= i < |s|
    ensures i == -1 <==> forall k :: 0 <= k < |s| ==> s[k] != c
    ensures 0 <= i ==> s[i] == c && forall k :: 0 <= k < i ==> s[k] != c
  {
    if |s| == 0 then -1
    else if s[0] == c then 0
    else
      var i := IndexOf(s[1..], c);
      if i == -1 then -1 else i + 1
  }

  /** The domain after the '@' has a '.' that is neither its first nor its
      last character. */
  predicate DottedDomain(d: string) {
    exists k :: 0 < k < |d| - 1 && d[k] == '.'
  }

  /** The accepted addresses described without a pattern: no blank anywhere,
      exactly one '@', something before it, and a dotted domain after it. */
  predicate HasEmailShape(s: string) {
    NoSpace(s) && Count(s, '@') == 1
    && var at := IndexOf(s, '@');
       0 < at && DottedDomain(s[at + 1..])
  }

  lemma {:induction false} CountAppend(a: string, b: string, c: char)
    ensures Count(a + b, c) == Count(a, c) + Count(b, c)
  {
    if |a| == 0 {
      assert a + b == b;
    } else {
      assert (a + b)[1..] == a[1..] + b;
      CountAppend(a[1..], b, c);
    }
  }

  lemma {:induction false} CountNone(s: string, c: char)
    requires forall k :: 0 <= k < |s| ==> s[k] != c
    ensures Count(s, c) == 0
  {
    if |s| > 0 {
      CountNone(s[1..], c);
    }
  }

  lemma {:induction false} CountSome(s: string, c: char, k: int)
    requires 0 <= k < |s| && s[k] == c
    ensures Count(s, c) >= 1
  {
    if k > 0 {
      CountSome(s[1..], c, k - 1);
    }
  }

  /** Splitting `s` around position `i` splits its count of `c`. */
  lemma CountAround(s: string, c: char, i: int)
    requires 0 <= i < |s|
    ensures Count(s, c) == Count(s[..i], c) + (if s[i] == c then 1 else 0) + Count(s[i + 1..], c)
  {
    assert s == s[..i] + ([s[i]] + s[i + 1..]);
    CountAppend(s[..i], [s[i]] + s[i + 1..], c);
    CountAppend([s[i]], s[i + 1..], c);
  }

  lemma PatternHasShape(s: string, i: int, j: int)
    requires 0 <= i < j < |s| && s[i] == '@' && s[j] == '.'
    requires Run(s[..i]) && Run(s[i + 1..j]) && Run(s[j + 1..])
    ensures HasEmailShape(s)
  {
    forall k | 0 <= k < |s| ensures !IsSpace(s[k]) && (k != i ==> s[k] != '@') {
      if k < i {
        assert s[k] == s[..i][k];
      } else if i < k < j {
        assert s[k] == s[i + 1..j][k - i - 1];
      } else if j < k {
        assert s[k] == s[j + 1..][k - j - 1];
      }
    }
    var tail := s[i + 1..];
    assert forall k :: 0 <= k < |tail| ==> tail[k] == s[i + 1 + k];
    CountNone(s[..i], '@');
    CountNone(tail, '@');
    CountAround(s, '@', i);
    var at := IndexOf(s, '@');
    assert at == i;
    assert tail[j - i - 1] == '.';
  }

  lemma ShapeHasPattern(s: string) returns (i: int, j: int)
    requires HasEmailShape(s)
    ensures 0 <= i < j < |s| && s[i] == '@' && s[j] == '.'
    ensures Run(s[..i]) && Run(s[i + 1..j]) && Run(s[j + 1..])
  {
    var at := IndexOf(s, '@');
    var d := s[at + 1..];
    var k :| 0 < k < |d| - 1 && d[k] == '.';
    i, j := at, at + 1 + k;
    assert s[j] == d[k];
    CountAround(s, '@', i);
    forall m | i < m < |s| ensures s[m] != '@' {
      if s[m] == '@' {
        CountSome(s[i + 1..], '@', m - i - 1);
      }
    }
  }

  /** The pattern and the plain description accept the same strings. */
  lemma EmailShape(s: string)
    ensures IsValidEmail(s) <==> HasEmailShape(s)
  {
    if IsValidEmail(s) {
      var i, j :| 0 <= i < j < |s| && s[i] == '@' && s[j] == '.'
        && Run(s[..i]) && Run(s[i + 1..j]) && Run(s[j + 1..]);
      PatternHasShape(s, i, j);
    }
    if HasEmailShape(s) {
      var i, j := ShapeHasPattern(s);
    }
  }

  /** A string with no '@', or with two or more, is never accepted. */
  lemma AtCountRejected(s: string)
    requires Count(s, '@') != 1
    ensures !IsValidEmail(s)
  {
    EmailShape(s);
  }

  /** An accepted address has no blank at either end, so trimming it is the
      identity and it is truthy. */
  lemma ValidEmailIsTrimmed(s: string)
    requires IsValidEmail(s)
    ensures Trim(s) == s && Truthy(Trim(s))
  {
    EmailShape(s);
    TrimNoSpace(s);
  }
}

=== FILE: js_text.dfy ===
/** The pieces of ECMAScript string semantics the pages rely on: the blank
    characters matched by the regular-expression class `\s` and removed by
    `String.prototype.trim`, `trim` itself, and the truthiness of a string in
    a condition. */
module JsText {

  /** The ECMAScript WhiteSpace and LineTerminator code points. The regular
      expression class `\s` and `trim` both use exactly this set. */
  predicate IsSpace(c: char) {
    c == '\t' || c == '\n' || c == '\U{000B}' || c == '\U{000C}' || c == '\r'
    || c == ' ' || c == '\U{00A0}' || c == '\U{1680}'
    || ('\U{2000}' <= c && c <= '\U{200A}')
    || c == '\U{2028}' || c == '\U{2029}' || c == '\U{202F}' || c == '\U{205F}'
    || c == '\U{3000}' || c == '\U{FEFF}'
  }

  /** A string used as a condition is true exactly when it is non-empty. */
  predicate Truthy(s: string) {
    |s| > 0
  }

  predicate NoSpace(s: string) {
    forall k :: 0 <= k < |s| ==> !IsSpace(s[k])
  }

  predicate AllSpace(s: string) {
    forall k :: 0 <= k < |s| ==> IsSpace(s[k])
  }

  /** `s` without its leading blanks. */
  function TrimStart(s: string): (r: string)
    ensures |r| <= |s| && r == s[|s| - |r|..]
    ensures AllSpace(s[..|s| - |r|])
    ensures |r| > 0 ==> !IsSpace(r[0])
  {
    if |s| > 0 && IsSpace(s[0]) then TrimStart(s[1..]) else s
  }

  /** `s` without its trailing blanks. */
  function TrimEnd(s: string): (r: string)
    ensures |r| <= |s| && r == s[..|r|]
    ensures AllSpace(s[|r|..])
    ensures |r| > 0 ==> !IsSpace(r[|r| - 1])
  {
    if |s| > 0 && IsSpace(s[|s| - 1]) then TrimEnd(s[..|s| - 1]) else s
  }

  /** Number of leading blanks of `s`. */
  function Lead(s: string): (n: nat)
    ensures n <= |s|
  {
    |s| - |TrimStart(s)|
  }

  /** `String.prototype.trim`: the infix of `s` left after cutting the
      leading and the trailing blanks; it neither starts nor ends with one. */
  function Trim(s: string): (r: string)
    ensures |r| > 0 ==> !IsSpace(r[0]) && !IsSpace(r[|r| - 1])
    ensures Lead(s) + |r| <= |s| && r == s[Lead(s)..Lead(s) + |r|]
    ensures AllSpace(s[..Lead(s)]) && AllSpace(s[Lead(s) + |r|..])
  {
    var t := TrimStart(s);
    var r := TrimEnd(t);
    var a := |s| - |t|;
    assert s[a..a + |r|] == t[..|r|];
    assert s[a + |r|..] == t[|r|..];
    r
  }

  /** Trimming leaves nothing exactly when the string is all blanks. */
  lemma TrimEmptyIffAllSpace(s: string)
    ensures Trim(s) == [] <==> AllSpace(s)
  {
    var r, a := Trim(s), Lead(s);
    if r == [] {
      forall k | 0 <= k < |s| ensures IsSpace(s[k]) {
        assert s[k] == s[..a][k];
      }
    } else {
      assert s[a] == r[0];
    }
  }

  /** A string with no blank in it is its own trim. */
  lemma TrimNoSpace(s: string)
    requires NoSpace(s)
    ensures Trim(s) == s
  {
    var r, a := Trim(s), Lead(s);
    assert a == 0 && a + |r| == |s| by {
      if a > 0 {
        assert false;
      }
      if a + |r| < |s| {
        assert false;
      }
    }
  }
}

=== FILE: login.dfy ===
/** The login page (client/app/auth/login/page.tsx): the guard and request
    of `signInWithEmail`, the `disabled` tests of its two buttons, the
    Enter-key guard, and the navigation done on mount and on auth events.

    The "Sign in" button tests the trimmed address while the Enter guard
    and `signInWithEmail` test the raw one, so an address of blanks only
    can reach the provider as the empty string by pressing Enter. */
module LoginPage {
  import opened Opt
  import opened JsText
  import opened Session
  import RegisterPage

  /** The page's React state (lines 17-22). */
  datatype Form = Form(
    user: Option<User>,
    loading: bool,
    email: string,
    password: string,
    emailLoading: bool,
    googleLoading: bool)

  /** The state on first render: spinner, empty form, nothing in flight. */
  function Initial(): (f: Form)
    ensures View(f) == LoaderScreen
    ensures SignInDisabled(f) && !GoogleDisabled(f.emailLoading, f.googleLoading)
    ensures forall key :: !EnterTriggers(f, key)
  {
    Form(None, true, "", "", false, false)
  }

  /** What the page renders (lines 165-169). */
  datatype Screen = LoaderScreen | FormScreen

  function View(f: Form): Screen {
    if f.loading then LoaderScreen else FormScreen
  }

  const MissingFieldsAlert: string := "Please enter both email and password"

  /** The arguments handed to the provider's `signInWithPassword`. */
  datatype SignInRequest = SignInRequest(email: string, password: string)

  /** The synchronous part of `signInWithEmail`: an alert, or the e-mail flag
      set and a request sent. */
  datatype Begun = Rejected | Submitted(form: Form, request: SignInRequest)

  function BeginSignIn(f: Form): (r: Begun)
    ensures r.Rejected? <==> !Truthy(f.email) || !Truthy(f.password)
    ensures r.Submitted? ==> r.form == f.(emailLoading := true)
    ensures r.Submitted? ==> r.request == SignInRequest(Trim(f.email), f.password)
  {
    if !Truthy(f.email) || !Truthy(f.password) then Rejected
    else Submitted(f.(emailLoading := true), SignInRequest(Trim(f.email), f.password))
  }

  /** How the provider's `signInWithPassword` ended. A success is followed by
      a SIGNED_IN event, which is where navigation happens. */
  datatype SignInOutcome = SignInError(message: string) | SignInThrew | SignInOk

  /** State after a handler, with the alert shown, if any. */
  datatype Reaction = Reaction(form: Form, alert: Option<string>)

  /** The asynchronous part of `signInWithEmail` (lines 109-121). */
  function FinishSignIn(f: Form, outcome: SignInOutcome): (r: Reaction)
    ensures !r.form.emailLoading && r.form.(emailLoading := f.emailLoading) == f
    ensures r.alert.Some? <==> !outcome.SignInOk?
    ensures outcome.SignInError? ==> r.alert == Some("Error: " + outcome.message)
  {
    var done := f.(emailLoading := false);
    match outcome
    case SignInError(message) => Reaction(done, Some("Error: " + message))
    case SignInThrew => Reaction(done, Some("An unexpected error occurred. Please try again."))
    case SignInOk => Reaction(done, None)
  }

  /** A whole e-mail sign-in attempt. */
  datatype Attempt = Attempt(form: Form, request: Option<SignInRequest>, alert: Option<string>)

  function SignInWithEmail(f: Form, outcome: SignInOutcome): (r: Attempt)
    ensures r.request.Some? <==> Truthy(f.email) && Truthy(f.password)
    ensures r.request.Some? ==> r.request.value.email == Trim(f.email) && r.request.value.password == f.password
    ensures r.request.Some? ==> !r.form.emailLoading
    ensures r.request.None? ==> r.form == f && r.alert == Some(MissingFieldsAlert)
  {
    match BeginSignIn(f)
    case Rejected => Attempt(f, None, Some(MissingFieldsAlert))
    case Submitted(g, request) =>
      var reaction := FinishSignIn(g, outcome);
      Attempt(reaction.form, Some(request), reaction.alert)
  }

  /** The `disabled` test of "Sign in" (lines 245-247). */
  function SignInDisabled(f: Form): (d: bool)
    ensures f.emailLoading || f.googleLoading ==> d
    ensures !d <==> !f.emailLoading && !f.googleLoading
                    && BeginSignIn(f).Submitted? && Truthy(BeginSignIn(f).request.email)
  {
    f.emailLoading || f.googleLoading || !Truthy(Trim(f.email)) || !Truthy(f.password)
  }

  /** `handleKeyPress` (lines 159-163): the raw fields are tested and the
      Google flag is not. */
  function EnterTriggers(f: Form, key: string): (t: bool)
    ensures key == "Enter" && !SignInDisabled(f) ==> t
    ensures t ==> BeginSignIn(f).Submitted? && !f.emailLoading
  {
    key == "Enter" && !f.emailLoading && Truthy(f.email) && Truthy(f.password)
  }

  /** Enter can start an e-mail sign-in while "Sign in" is disabled because
      a Google attempt is in flight. */
  lemma EnterIgnoresGoogleFlag() returns (f: Form)
    ensures EnterTriggers(f, "Enter") && SignInDisabled(f) && f.googleLoading
    ensures BeginSignIn(f) == Submitted(f.(emailLoading := true), SignInRequest("a", "p"))
  {
    f := Form(None, false, "a", "p", false, true);
    TrimNoSpace(f.email);
  }

  /** A blank-only address passes the Enter guard while the button is
      disabled, and the provider then receives the empty address. */
  lemma EnterSendsBlankAddress(outcome: SignInOutcome) returns (f: Form)
    ensures EnterTriggers(f, "Enter") && SignInDisabled(f)
    ensures SignInWithEmail(f, outcome).request == Some(SignInRequest("", f.password))
  {
    f := Form(None, false, " ", "secret", false, false);
    assert IsSpace(f.email[0]);
    TrimEmptyIffAllSpace(f.email);
    assert Trim(f.email) == "";
    assert BeginSignIn(f) == Submitted(f.(emailLoading := true), SignInRequest("", "secret"));
  }

  /** The provider receives an empty address only for an all-blank input the
      button would have refused, that is, only by way of the Enter key. */
  lemma BlankAddressOnlyByEnter(f: Form, outcome: SignInOutcome)
    requires SignInWithEmail(f, outcome).request.Some?
    requires SignInWithEmail(f, outcome).request.value.email == ""
    ensures AllSpace(f.email) && Truthy(f.email) && SignInDisabled(f)
  {
    TrimEmptyIffAllSpace(f.email);
  }

  /** While the request is in flight, neither button nor the Enter key can
      start another submission. */
  lemma InFlightBlocksResubmit(f: Form, key: string)
    requires BeginSignIn(f).Submitted?
    ensures var g := BeginSignIn(f).form;
            SignInDisabled(g) && GoogleDisabled(g.emailLoading, g.googleLoading) && !EnterTriggers(g, key)
  {
  }

  /** A state change together with the route pushed, if any. */
  datatype Transition = Transition(form: Form, navigate: Option<string>)

  /** The mount effect (lines 26-50): store the fetched user and go home
      whenever there is one. */
  function OnMount(f: Form, outcome: GetUserOutcome): (r: Transition)
    ensures !r.form.loading
    ensures r.navigate.Some? ==> r.navigate == Some(HomePath)
    ensures r.navigate.Some? <==> outcome.Fetched? && outcome.user.Some?
    ensures r.form.user == (if outcome.Fetched? then outcome.user else f.user)
    ensures r.form.(loading := f.loading, user := f.user) == f
  {
    match outcome
    case Threw => Transition(f.(loading := false), None)
    case Fetched(user, _) =>
      var g := f.(user := user, loading := false);
      if user.Some? then Transition(g, Some(HomePath)) else Transition(g, None)
  }

  /** The auth-state listener (lines 54-65). `sessionUser` is
      `session?.user`. */
  function OnAuthEvent(f: Form, event: AuthEvent, sessionUser: Option<User>): (r: Transition)
    ensures event == SignedIn && sessionUser.Some? ==> r == Transition(f.(user := sessionUser), Some(HomePath))
    ensures event == SignedOut ==> r == Transition(f.(user := None), Some(LoginPath))
    ensures r.navigate.None? <==> r == Transition(f, None)
    ensures r.navigate.None? <==> event != SignedOut && (event != SignedIn || sessionUser.None?)
  {
    if event == SignedIn && sessionUser.Some? then Transition(f.(user := sessionUser), Some(HomePath))
    else if event == SignedOut then Transition(f.(user := None), Some(LoginPath))
    else Transition(f, None)
  }

  /** On this page the mount effect and a SIGNED_IN event treat a fetched
      user alike: both store it and push `/home`, confirmed or not. */
  lemma MountMatchesSignIn(f: Form, u: User, failed: bool)
    ensures OnMount(f, Fetched(Some(u), failed))
            == OnAuthEvent(f.(loading := false), SignedIn, Some(u))
  {
  }

  /** A sign-out followed by a sign-in ends where the sign-in alone would:
      the user is the new one, and the page goes to the login route and then
      home. */
  lemma SignOutThenSignIn(f: Form, u: User)
    ensures var out := OnAuthEvent(f, SignedOut, None);
            var back := OnAuthEvent(out.form, SignedIn, Some(u));
            out.navigate == Some(LoginPath) && back.navigate == Some(HomePath)
            && back.form == OnAuthEvent(f, SignedIn, Some(u)).form
  {
  }

  /** The two pages part ways over an unconfirmed user: the login page sends
      them home on mount and on SIGNED_IN, the registration page keeps them
      where they are. Both store the user. */
  lemma UnconfirmedUserDiffers(f: Form, g: RegisterPage.Form, u: User, failed: bool)
    requires !Confirmed(u)
    ensures OnMount(f, Fetched(Some(u), failed)).navigate == Some(HomePath)
    ensures RegisterPage.OnMount(g, Fetched(Some(u), failed)).navigate.None?
    ensures OnAuthEvent(f, SignedIn, Some(u)).navigate == Some(HomePath)
    ensures RegisterPage.OnAuthEvent(g, SignedIn, Some(u)).navigate.None?
    ensures OnMount(f, Fetched(Some(u), failed)).form.user
            == RegisterPage.OnMount(g, Fetched(Some(u), failed)).form.user == Some(u)
  {
  }

  /** For a confirmed user, or no user, the pages navigate alike on mount;
      on SIGNED_OUT only the login page moves, to its own route. */
  lemma PagesAgreeOtherwise(f: Form, g: RegisterPage.Form, outcome: GetUserOutcome)
    requires outcome.Fetched? && outcome.user.Some? ==> Confirmed(outcome.user.value)
    ensures OnMount(f, outcome).navigate == RegisterPage.OnMount(g, outcome).navigate
    ensures OnAuthEvent(f, SignedOut, None).navigate == Some(LoginPath)
    ensures RegisterPage.OnAuthEvent(g, SignedOut, None).navigate.None?
  {
  }
}

=== FILE: opt.dfy ===
/** A value that may be absent: the model's stand-in for a JavaScript
    `null`/`undefined` field or return value. */
module Opt {

  datatype Option<+T> = None | Some(value: T) {

    /** The wrapped value, or `default` when absent (the `??` operator). */
    function GetOr(default: T): T {
      match this
      case Some(v) => v
      case None => default
    }
  }
}

=== FILE: password.dfy ===
/** The password-strength meter of the registration page
    (client/app/auth/register/page.tsx:195-210 and the five bars drawn at
    lines 385-428). Lengths are counted in characters. */
module PasswordStrength {

  predicate IsUpper(c: char) { 'A' <= c <= 'Z' }
  predicate IsDigit(c: char) { '0' <= c <= '9' }
  predicate IsAsciiAlnum(c: char) { IsUpper(c) || IsDigit(c) || ('a' <= c <= 'z') }

  /** `/[A-Z]/.test(p)` */
  predicate HasUpper(p: string) { exists k :: 0 <= k < |p| && IsUpper(p[k]) }
  /** `/[0-9]/.test(p)` */
  predicate HasDigit(p: string) { exists k :: 0 <= k < |p| && IsDigit(p[k]) }
  /** `/[^A-Za-z0-9]/.test(p)` */
  predicate HasSymbol(p: string) { exists k :: 0 <= k < |p| && !IsAsciiAlnum(p[k]) }

  /** The five bars under the password field, left to right; a bar is green
      when its check holds. */
  function Bars(p: string): (b: seq<bool>)
    ensures |b| == 5
  {
    [|p| >= 6, |p| >= 8, HasUpper(p), HasDigit(p), HasSymbol(p)]
  }

  function Point(b: bool): nat { if b then 1 else 0 }

  /** Number of true entries. */
  function CountTrue(bs: seq<bool>): (n: nat)
    ensures n <= |bs|
  {
    if |bs| == 0 then 0 else Point(bs[0]) + CountTrue(bs[1..])
  }

  /** `getPasswordStrength`: one point for each of the five checks passed. */
  function Strength(p: string): (r: nat)
    ensures r <= 5
    ensures |p| >= 8 ==> r >= 2
    ensures |p| < 6 ==> r <= 3
    ensures r == 0 <==> |p| < 6 && !HasUpper(p) && !HasDigit(p) && !HasSymbol(p)
  {
    Point(|p| >= 6) + Point(|p| >= 8) + Point(HasUpper(p)) + Point(HasDigit(p)) + Point(HasSymbol(p))
  }

  /** The score is the number of green bars: the meter and the label agree. */
  lemma StrengthCountsBars(p: string)
    ensures Strength(p) == CountTrue(Bars(p))
  {
    var b := Bars(p);
    assert CountTrue(b[4..]) == Point(b[4]) by { assert b[4..][1..] == []; }
    assert CountTrue(b[3..]) == Point(b[3]) + CountTrue(b[4..]) by { assert b[3..][1..] == b[4..]; }
    assert CountTrue(b[2..]) == Point(b[2]) + CountTrue(b[3..]) by { assert b[2..][1..] == b[3..]; }
    assert CountTrue(b[1..]) == Point(b[1]) + CountTrue(b[2..]) by { assert b[1..][1..] == b[2..]; }
  }

  /** The label shown beside the meter. */
  datatype Band = Weak | Fair | Strong {
    function Text(): string {
      match this
      case Weak => "Weak"
      case Fair => "Fair"
      case Strong => "Strong"
    }
    function Color(): string {
      match this
      case Weak => "text-red-500"
      case Fair => "text-yellow-500"
      case Strong => "text-green-500"
    }
    function Rank(): nat {
      match this
      case Weak => 0
      case Fair => 1
      case Strong => 2
    }
  }

  /** `getPasswordStrengthText`. */
  function StrengthBand(p: string): (b: Band)
    ensures b == Weak <==> Strength(p) < 2
    ensures b == Fair <==> 2 <= Strength(p) < 4
    ensures b == Strong <==> Strength(p) >= 4
    ensures |p| >= 8 ==> b != Weak
  {
    var strength := Strength(p);
    if strength < 2 then Weak
    else if strength < 4 then Fair
    else Strong
  }

  /** A "Strong" password has at least six characters and at least two of
      the three character classes: length alone earns at most two points. */
  lemma StrongNeedsClasses(p: string)
    requires StrengthBand(p) == Strong
    ensures |p| >= 6
    ensures Point(HasUpper(p)) + Point(HasDigit(p)) + Point(HasSymbol(p)) >= 2
  {
  }

  /** Typing more characters never lowers the score or the label. */
  lemma AppendNeverWeakens(p: string, q: string)
    ensures Strength(p) <= Strength(p + q)
    ensures StrengthBand(p).Rank() <= StrengthBand(p + q).Rank()
  {
    var pq := p + q;
    if HasUpper(p) {
      var k :| 0 <= k < |p| && IsUpper(p[k]);
      assert pq[k] == p[k];
    }
    if HasDigit(p) {
      var k :| 0 <= k < |p| && IsDigit(p[k]);
      assert pq[k] == p[k];
    }
    if HasSymbol(p) {
      var k :| 0 <= k < |p| && !IsAsciiAlnum(p[k]);
      assert pq[k] == p[k];
    }
  }
}

=== FILE: register.dfy ===
/** The registration page (client/app/auth/register/page.tsx): its form
    state, the ordered validation of `signUpWithEmail`, the reaction to the
    provider's sign-up answer, the `disabled` test of "Create Account", the
    Enter-key guard, and the navigation done on mount and on auth events. */
module RegisterPage {
  import opened Opt
  import opened JsText
  import opened EmailFormat
  import opened Session

  /** The page's React state (lines 18-26). */
  datatype Form = Form(
    user: Option<User>,
    loading: bool,
    email: string,
    password: string,
    confirmPassword: string,
    emailLoading: bool,
    googleLoading: bool,
    agreedToTerms: bool,
    showEmailSent: bool)

  /** The state on first render: a spinner while the current user is fetched,
      an empty form, nothing in flight. */
  function Initial(): (f: Form)
    ensures View(f) == LoaderScreen
    ensures CreateAccountDisabled(f)
    ensures forall key :: !EnterTriggers(f, key)
  {
    Form(None, true, "", "", "", false, false, false, false)
  }

  /** What the page renders (lines 243-295). */
  datatype Screen = LoaderScreen | EmailSentScreen | FormScreen

  function View(f: Form): Screen {
    if f.loading then LoaderScreen
    else if f.showEmailSent then EmailSentScreen
    else FormScreen
  }

  /** The five validation alerts of `signUpWithEmail`, in the order the page
      tests them. */
  datatype Alert = EmptyEmail | MalformedEmail | ShortPassword | PasswordMismatch | TermsNotAccepted {

    function Rank(): nat {
      match this
      case EmptyEmail => 0
      case MalformedEmail => 1
      case ShortPassword => 2
      case PasswordMismatch => 3
      case TermsNotAccepted => 4
    }

    function Message(): string {
      match this
      case EmptyEmail => "Please enter your email address"
      case MalformedEmail => "Please enter a valid email address"
      case ShortPassword => "Password must be at least 6 characters long!"
      case PasswordMismatch => "Passwords do not match!"
      case TermsNotAccepted => "Please agree to the Terms of Service and Privacy Policy!"
    }
  }

  /** Whether the check guarding alert `a` passes on `f`. */
  predicate Passes(f: Form, a: Alert) {
    match a
    case EmptyEmail => Truthy(Trim(f.email))
    case MalformedEmail => IsValidEmail(f.email)
    case ShortPassword => |f.password| >= 6
    case PasswordMismatch => f.password == f.confirmPassword
    case TermsNotAccepted => f.agreedToTerms
  }

  /** The validation chain of `signUpWithEmail` (lines 103-126): the alert of
      the first failing check, or nothing when all pass. */
  function Validate(f: Form): (r: Option<Alert>)
    ensures r.None? <==> forall a: Alert :: Passes(f, a)
    ensures r.Some? ==> !Passes(f, r.value)
    ensures r.Some? ==> forall a: Alert :: a.Rank() < r.value.Rank() ==> Passes(f, a)
  {
    ChecksInOrder(f);
    if !Truthy(Trim(f.email)) then Some(EmptyEmail)
    else if !IsValidEmail(f.email) then Some(MalformedEmail)
    else if |f.password| < 6 then Some(ShortPassword)
    else if f.password != f.confirmPassword then Some(PasswordMismatch)
    else if !f.agreedToTerms then Some(TermsNotAccepted)
    else None
  }

  /** Each test of the chain fails exactly when its alert's check does; each
      prefix of the chain that passes makes every check of lower rank pass,
      and the whole chain passing makes every check pass. */
  lemma ChecksInOrder(f: Form)
    ensures !Truthy(Trim(f.email)) <==> !Passes(f, EmptyEmail)
    ensures !IsValidEmail(f.email) <==> !Passes(f, MalformedEmail)
    ensures |f.password| < 6 <==> !Passes(f, ShortPassword)
    ensures f.password != f.confirmPassword <==> !Passes(f, PasswordMismatch)
    ensures !f.agreedToTerms <==> !Passes(f, TermsNotAccepted)
    ensures Truthy(Trim(f.email)) ==> forall a: Alert :: a.Rank() < 1 ==> Passes(f, a)
    ensures Truthy(Trim(f.email)) && IsValidEmail(f.email)
            ==> forall a: Alert :: a.Rank() < 2 ==> Passes(f, a)
    ensures Truthy(Trim(f.email)) && IsValidEmail(f.email) && |f.password| >= 6
            ==> forall a: Alert :: a.Rank() < 3 ==> Passes(f, a)
    ensures Truthy(Trim(f.email)) && IsValidEmail(f.email) && |f.password| >= 6
            && f.password == f.confirmPassword
            ==> forall a: Alert :: a.Rank() < 4 ==> Passes(f, a)
    ensures Truthy(Trim(f.email)) && IsValidEmail(f.email) && |f.password| >= 6
            && f.password == f.confirmPassword && f.agreedToTerms
            ==> forall a: Alert :: Passes(f, a)
  {
    ChecksBefore(f, 0);
    if Truthy(Trim(f.email)) {
      ChecksBefore(f, 1);
      if IsValidEmail(f.email) {
        ChecksBefore(f, 2);
        if |f.password| >= 6 {
          ChecksBefore(f, 3);
          if f.password == f.confirmPassword {
            ChecksBefore(f, 4);
            if f.agreedToTerms {
              ChecksBefore(f, 5);
            }
          }
        }
      }
    }
  }

  /** Every check ranked below `k` passes when the page's tests before the
      `k`-th do. */
  lemma ChecksBefore(f: Form, k: nat)
    requires k > 0 ==> Truthy(Trim(f.email))
    requires k > 1 ==> IsValidEmail(f.email)
    requires k > 2 ==> |f.password| >= 6
    requires k > 3 ==> f.password == f.confirmPassword
    requires k > 4 ==> f.agreedToTerms
    ensures forall a: Alert :: a.Rank() < k ==> Passes(f, a)
    ensures k > 4 ==> forall a: Alert :: Passes(f, a)
  {
    forall a: Alert | a.Rank() < k || k > 4 ensures Passes(f, a) {
      match a
      case EmptyEmail =>
      case MalformedEmail =>
      case ShortPassword =>
      case PasswordMismatch =>
      case TermsNotAccepted =>
    }
  }

  /** The arguments handed to the provider's `signUp`. */
  datatype SignUpRequest = SignUpRequest(email: string, password: string, emailRedirectTo: string)

  /** The synchronous part of `signUpWithEmail`: an alert, or the e-mail flag
      set and a request sent. */
  datatype Begun = Rejected(alert: Alert) | Submitted(form: Form, request: SignUpRequest)

  function BeginSignUp(f: Form, origin: string): (r: Begun)
    ensures r.Rejected? <==> Validate(f).Some?
    ensures r.Rejected? ==> Some(r.alert) == Validate(f)
    ensures r.Submitted? ==> r.form == f.(emailLoading := true)
    ensures r.Submitted? ==> r.request == SignUpRequest(f.email, f.password, CallbackUrl(origin))
  {
    match Validate(f)
    case Some(alert) => Rejected(alert)
    case None =>
      ValidEmailIsTrimmed(f.email);
      Submitted(f.(emailLoading := true), SignUpRequest(Trim(f.email), f.password, CallbackUrl(origin)))
  }

  /** How the provider's `signUp` ended. */
  datatype SignUpOutcome = SignUpError(message: string) | SignUpThrew | SignUpReturned(user: Option<User>)

  /** State after a handler, with the alert shown and the route pushed. */
  datatype Reaction = Reaction(form: Form, alert: Option<string>, navigate: Option<string>)

  /** The asynchronous part of `signUpWithEmail` (lines 138-159). */
  function FinishSignUp(f: Form, outcome: SignUpOutcome): (r: Reaction)
    ensures !r.form.emailLoading
    ensures r.form.(emailLoading := f.emailLoading, showEmailSent := f.showEmailSent) == f
    ensures r.alert.Some? <==> !outcome.SignUpReturned?
    ensures r.navigate.Some? ==> r.navigate == Some(HomePath)
    ensures r.navigate.Some? <==> outcome.SignUpReturned? && outcome.user.Some? && Confirmed(outcome.user.value)
    ensures r.form.showEmailSent
            <==> f.showEmailSent || (outcome.SignUpReturned? && outcome.user.Some? && !Confirmed(outcome.user.value))
  {
    var done := f.(emailLoading := false);
    match outcome
    case SignUpError(message) => Reaction(done, Some("Error: " + message), None)
    case SignUpThrew => Reaction(done, Some("An unexpected error occurred. Please try again."), None)
    case SignUpReturned(None) => Reaction(done, None, None)
    case SignUpReturned(Some(u)) =>
      if !Confirmed(u) then Reaction(done.(showEmailSent := true), None, None)
      else Reaction(done, None, Some(HomePath))
  }

  /** A whole e-mail sign-up attempt: what was asked of the provider, if
      anything, and what the page shows and does afterwards. */
  datatype Attempt = Attempt(form: Form, request: Option<SignUpRequest>, alert: Option<string>, navigate: Option<string>)

  function SignUpWithEmail(f: Form, origin: string, outcome: SignUpOutcome): (r: Attempt)
    ensures r.request.Some? <==> Validate(f).None?
    ensures r.request.Some? ==> |f.password| >= 6 && f.password == f.confirmPassword
    ensures r.request.Some? ==> IsValidEmail(f.email) && f.agreedToTerms
    ensures r.request.Some? ==> r.request.value.email == f.email && r.request.value.password == f.password
    ensures r.request.Some? ==> !r.form.emailLoading
    ensures r.request.None? ==> r.form == f && r.navigate.None? && r.alert == Some(Validate(f).value.Message())
  {
    match BeginSignUp(f, origin)
    case Rejected(alert) => Attempt(f, None, Some(alert.Message()), None)
    case Submitted(g, request) =>
      var reaction := FinishSignUp(g, outcome);
      Attempt(reaction.form, Some(request), reaction.alert, reaction.navigate)
  }

  /** After a successful `signUp`, an unconfirmed user brings up the
      "check your email" screen and no navigation, and a confirmed user is
      sent to `/home`. */
  lemma SignUpResultBranch(f: Form, origin: string, u: User)
    requires Validate(f).None? && !f.loading
    ensures var r := SignUpWithEmail(f, origin, SignUpReturned(Some(u)));
            if Confirmed(u) then r.navigate == Some(HomePath) && r.form.showEmailSent == f.showEmailSent
            else r.navigate.None? && View(r.form) == EmailSentScreen
  {
  }

  /** The `disabled` test of "Create Account" (lines 434-443). */
  function CreateAccountDisabled(f: Form): (d: bool)
    ensures f.emailLoading || f.googleLoading ==> d
    ensures !d <==> !f.emailLoading && !f.googleLoading && forall a: Alert :: a != MalformedEmail ==> Passes(f, a)
    ensures !d ==> Validate(f) in {None, Some(MalformedEmail)}
  {
    ChecksButFormat(f);
    f.emailLoading || f.googleLoading || !Truthy(Trim(f.email)) || !Truthy(f.password)
    || !Truthy(f.confirmPassword) || f.password != f.confirmPassword
    || |f.password| < 6 || !f.agreedToTerms
  }

  /** Every check except the e-mail format passes exactly when the address
      is non-blank, the password has six characters and is confirmed, and
      the terms are accepted. */
  lemma ChecksButFormat(f: Form)
    ensures (forall a: Alert :: a != MalformedEmail ==> Passes(f, a))
            <==> Truthy(Trim(f.email)) && |f.password| >= 6 && f.password == f.confirmPassword && f.agreedToTerms
  {
    if Truthy(Trim(f.email)) && |f.password| >= 6 && f.password == f.confirmPassword && f.agreedToTerms {
      forall a: Alert | a != MalformedEmail ensures Passes(f, a) {
        match a
        case EmptyEmail =>
        case MalformedEmail =>
        case ShortPassword =>
        case PasswordMismatch =>
        case TermsNotAccepted =>
      }
    } else {
      assert !Passes(f, EmptyEmail) || !Passes(f, ShortPassword)
             || !Passes(f, PasswordMismatch) || !Passes(f, TermsNotAccepted);
    }
  }

  /** An enabled button means nothing is in flight and every validation
      check except the e-mail format passes. */
  lemma EnabledButtonPassesChecks(f: Form)
    requires !CreateAccountDisabled(f)
    ensures !f.emailLoading && !f.googleLoading
    ensures forall a: Alert :: a != MalformedEmail ==> Passes(f, a)
  {
    forall a: Alert | a != MalformedEmail ensures Passes(f, a) {
    }
  }

  /** So with a well-formed address, a click on the enabled button always
      reaches the provider. */
  lemma EnabledButtonWithValidEmailSubmits(f: Form, origin: string)
    requires !CreateAccountDisabled(f) && IsValidEmail(f.email)
    ensures BeginSignUp(f, origin).Submitted?
  {
    EnabledButtonPassesChecks(f);
  }

  /** The button does not test the format: it can be enabled on an address
      that validation then rejects. */
  lemma ButtonIgnoresEmailFormat() returns (f: Form)
    ensures !CreateAccountDisabled(f) && Validate(f) == Some(MalformedEmail)
  {
    f := Form(None, false, "a", "secret", "secret", false, false, true, false);
    TrimNoSpace(f.email);
    assert Truthy(Trim(f.email));
    assert !IsValidEmail(f.email);
    assert !CreateAccountDisabled(f);
    assert Validate(f) == Some(MalformedEmail);
  }

  /** The inline "Passwords do not match" hint (line 378). */
  function MismatchHint(f: Form): (h: bool)
    ensures h ==> CreateAccountDisabled(f)
    ensures h ==> Validate(f).Some? && Validate(f).value.Rank() <= PasswordMismatch.Rank()
  {
    Truthy(f.confirmPassword) && f.password != f.confirmPassword
  }

  /** `handleKeyPress` (lines 212-223): the raw fields are tested, and the
      Google flag is not. */
  function EnterTriggers(f: Form, key: string): (t: bool)
    ensures key == "Enter" && !CreateAccountDisabled(f) ==> t
    ensures t ==> f.agreedToTerms && !f.emailLoading
  {
    key == "Enter" && !f.emailLoading && Truthy(f.email) && Truthy(f.password)
    && Truthy(f.confirmPassword) && f.agreedToTerms
  }

  /** Enter can start a sign-up while the button is disabled because the
      Google flow is in flight. */
  lemma EnterIgnoresGoogleFlag() returns (f: Form)
    ensures EnterTriggers(f, "Enter") && CreateAccountDisabled(f) && Validate(f).None?
  {
    var e := "a@b.io";
    assert e[1] == '@' && e[3] == '.';
    assert e[..1] == "a";
    assert e[2..3] == "b";
    assert e[4..] == "io";
    assert Run(e[..1]) && Run(e[2..3]) && Run(e[4..]);
    assert IsValidEmail(e);
    ValidEmailIsTrimmed(e);
    f := Form(None, false, e, "secret", "secret", false, true, true, false);
    assert |f.password| == 6;
  }

  /** A blank address gets past the Enter guard, which does not trim, but the
      first validation check stops it before the provider. */
  lemma BlankEmailStoppedByValidation(f: Form, key: string, origin: string)
    requires EnterTriggers(f, key) && AllSpace(f.email)
    ensures BeginSignUp(f, origin) == Rejected(EmptyEmail)
  {
    TrimEmptyIffAllSpace(f.email);
  }

  /** While the request is in flight, neither the button, the Google button
      nor the Enter key can start another submission. */
  lemma InFlightBlocksResubmit(f: Form, origin: string, key: string)
    requires BeginSignUp(f, origin).Submitted?
    ensures var g := BeginSignUp(f, origin).form;
            CreateAccountDisabled(g) && GoogleDisabled(g.emailLoading, g.googleLoading) && !EnterTriggers(g, key)
  {
  }

  /** A state change together with the route pushed, if any. */
  datatype Transition = Transition(form: Form, navigate: Option<string>)

  /** The mount effect (lines 30-54): store the fetched user and go home only
      when that user has confirmed their address. */
  function OnMount(f: Form, outcome: GetUserOutcome): (r: Transition)
    ensures !r.form.loading
    ensures r.navigate.Some? ==> r.navigate == Some(HomePath)
    ensures r.navigate.Some? <==> outcome.Fetched? && outcome.user.Some? && Confirmed(outcome.user.value)
    ensures r.form.user == (if outcome.Fetched? then outcome.user else f.user)
    ensures r.form.(loading := f.loading, user := f.user) == f
  {
    match outcome
    case Threw => Transition(f.(loading := false), None)
    case Fetched(user, _) =>
      var g := f.(user := user, loading := false);
      if user.Some? && Confirmed(user.value) then Transition(g, Some(HomePath)) else Transition(g, None)
  }

  /** The auth-state listener (lines 58-71). `sessionUser` is
      `session?.user`. */
  function OnAuthEvent(f: Form, event: AuthEvent, sessionUser: Option<User>): (r: Transition)
    ensures r.navigate.Some? ==> r.navigate == Some(HomePath)
    ensures r.navigate.Some? <==> event == SignedIn && sessionUser.Some? && Confirmed(sessionUser.value)
    ensures event == SignedIn && sessionUser.Some? ==> r.form == f.(user := sessionUser)
    ensures event == SignedOut ==> r.form == f.(user := None)
    ensures event != SignedOut && (event != SignedIn || sessionUser.None?) ==> r == Transition(f, None)
  {
    if event == SignedIn && sessionUser.Some? then
      var g := f.(user := sessionUser);
      if Confirmed(sessionUser.value) then Transition(g, Some(HomePath)) else Transition(g, None)
    else if event == SignedOut then Transition(f.(user := None), None)
    else Transition(f, None)
  }

  /** The listener does not deduplicate: a second SIGNED_IN for the same
      confirmed user pushes `/home` again. */
  lemma RepeatedSignInNavigatesAgain(f: Form, u: User)
    requires Confirmed(u)
    ensures var first := OnAuthEvent(f, SignedIn, Some(u));
            first.navigate == Some(HomePath)
            && OnAuthEvent(first.form, SignedIn, Some(u)).navigate == Some(HomePath)
  {
  }
}

=== FILE: session.dfy ===
/** What the login and registration pages share: the user record and
    auth-state events delivered by the hosted auth provider, the outcome of
    fetching the current user, the navigation targets, and the Google OAuth
    button, whose handler and `disabled` test are identical on both pages
    (client/app/auth/login/page.tsx:72-94, 272 and
    client/app/auth/register/page.tsx:76-99, 468). The provider itself is not
    modelled: each call it answers becomes a parameter holding its answer. */
module Session {
  import opened Opt
  import opened JsText

  /** The fields of the provider's user record the pages read. */
  datatype User = User(id: string, email: string, emailConfirmedAt: Option<string>)

  /** `user.email_confirmed_at` used as a condition. */
  predicate Confirmed(u: User) {
    u.emailConfirmedAt.Some? && Truthy(u.emailConfirmedAt.value)
  }

  /** The auth-state-change events the pages tell apart. Both listeners test
      only for SIGNED_IN and SIGNED_OUT, so every other event the provider may
      emit, listed here or not, takes their "anything else" branch. */
  datatype AuthEvent = InitialSession | SignedIn | SignedOut | TokenRefreshed | UserUpdated | PasswordRecovery

  /** How `getUser()` ended: it returned a user (or null) together with an
      error flag, or it threw. */
  datatype GetUserOutcome = Fetched(user: Option<User>, failed: bool) | Threw

  const HomePath: string := "/home"
  const LoginPath: string := "/auth/login"
  const CallbackPath: string := "/auth/callback"

  /** The redirect target both pages hand to the provider for OAuth and for
      the confirmation e-mail: the callback route on the page's own origin. */
  function CallbackUrl(origin: string): (u: string)
    ensures |u| >= |origin| && u[..|origin|] == origin && u[|origin|..] == CallbackPath
  {
    origin + CallbackPath
  }

  /** The request `signInWithOAuth` is given. */
  datatype OAuthRequest = OAuthRequest(provider: string, redirectTo: string, accessType: string, prompt: string)

  /** How `signInWithOAuth` ended: the browser is sent to the provider's
      consent screen, the call returned an error, or it threw. */
  datatype OAuthOutcome = OAuthRedirect | OAuthError(message: string) | OAuthThrew

  /** The Google button's `disabled` test. */
  predicate GoogleDisabled(emailLoading: bool, googleLoading: bool) {
    googleLoading || emailLoading
  }

  /** What the Google handler leaves behind. */
  datatype OAuthStep = OAuthStep(request: OAuthRequest, googleLoading: bool, alert: Option<string>, leftPage: bool)

  /** `signInWithGoogle`: set the Google flag, ask the provider for a
      redirect, alert on a returned error, and clear the flag only when the
      call throws. */
  function GoogleSignIn(origin: string, outcome: OAuthOutcome): (r: OAuthStep)
    ensures r.request.provider == "google" && r.request.redirectTo == CallbackUrl(origin)
    ensures r.leftPage <==> outcome == OAuthRedirect
    ensures r.alert.Some? <==> outcome.OAuthError?
    ensures outcome.OAuthError? ==> r.alert == Some("Error: " + outcome.message)
    ensures !r.googleLoading <==> outcome == OAuthThrew
  {
    var request := OAuthRequest("google", CallbackUrl(origin), "offline", "consent");
    match outcome
    case OAuthRedirect => OAuthStep(request, true, None, true)
    case OAuthError(message) => OAuthStep(request, true, Some("Error: " + message), false)
    case OAuthThrew => OAuthStep(request, false, None, false)
  }

  /** When the provider returns an error, the user stays on the page with the
      Google flag still set, so the Google button stays disabled whatever the
      e-mail flag is. */
  lemma OAuthErrorKeepsGoogleDisabled(origin: string, message: string, emailLoading: bool)
    ensures var r := GoogleSignIn(origin, OAuthError(message));
            !r.leftPage && GoogleDisabled(emailLoading, r.googleLoading)
  {
  }

  /** After a Google attempt that does not leave the page, the Google button
      is enabled again only when the call threw and no e-mail attempt is in
      flight. */
  lemma GoogleButtonAfterAttempt(origin: string, outcome: OAuthOutcome, emailLoading: bool)
    requires !GoogleSignIn(origin, outcome).leftPage
    ensures GoogleDisabled(emailLoading, GoogleSignIn(origin, outcome).googleLoading)
            <==> outcome.OAuthError? || emailLoading
  {
  }
}
